=== FILE: README.md ===
# Pitch arithmetic of the Absolute Pitch ear-training exercises

This project models three pieces of the ear-training application in Dafny:

- **Transposition** (`transpose`). A note is moved by a signed number of
  semitones. The result must stay on the piano, MIDI 21 (A0) to 127 (G9),
  or the call fails. The same operation is lifted to note lists and to note
  events. For a note event only its `notes` change.
- **The Absolute Pitch question generator** (`getMelodicQuestionInC`). It has
  four parts:
  - a top voice is drawn from a register whose lowest bound is raised a major
    third per extra voice;
  - lower voices are chosen greedily, each from a register a major third below
    the previous one. Each lower note must lie a permitted harmonic interval
    below the note above it, or else it copies that note;
  - a six-note resolution melody is built from a table keyed by the question
    note's scale degree in C, with some notes raised an octave;
  - durations are attached to the melody.
- **The note-name exercise backup** (`noteDescriptorList`,
  `noteNameToIntervalDescriptor`, `getQuestion`). It has a table of twelve
  note descriptors and a random placement inside C2 to C6. Its resolution
  table covers only the seven diatonic degrees.

Assumptions about helpers whose code is not part of this model:

- **Notes.** Notes are MIDI numbers (C4 = 60).
  - Pitch class is `n % 12` and octave is `n / 12 - 1`.
  - `noteTypeToNote(t, o)` is `12 * (o + 1) + class(t)`.
  - `getScaleDegreeFromNote('C', n)` maps class `n % 12` to the degrees `1, b2, 2, b3, 3, 4, #4, 5, b6, 6, b7, 7` in order. The first note of each resolution pattern confirms this order.
- **Included answers.** The Absolute Pitch exercise's included answers are solfège names (`absPitchExercise.ts:47`, default `['Do', 'Re', 'Mi']` at `:77`). The model stores them as the scale degrees they name, so `includedAnswers` is a set of degrees and "Do, Re, Mi" is `{One, Two, Three}`. Two facts justify this:
  - `scaleDegreeToSolfegeNote` is taken as one-to-one: Do = 1, Re = 2, Mi = 3, and so on, with a distinct name for each of the twelve degrees. A solfège name is then included exactly when its degree is.
  - `noteTypeToScaleDegree(getNoteType(n), 'C')`, which the register filter uses (`absPitchExercise.ts:68-72`, `:95-99`), is taken to give the same degree as `getScaleDegreeFromNote('C', n)` above.
- **Ranges.** A `NotesRange` is the interval `[lowest, highest]`. Shifting it shifts both bounds, and that shift uses the same piano-range check as `transpose`. `getRangeForKeyOfC` is taken as the identity, which it is when the exercise key is C; other keys are listed under "## Left out".
- **Transposition of registers and corrections.** Both exercises import `transpose` from a `utility/music/transpose` module that is not part of this model. It is assumed to behave on notes like `src/app/exercise/utility/transpose.ts`, so the register shift (`absPitchExercise.ts:106`, `:146`) and the octave corrections (`absPitchExercise.ts:213-245`, `APMExercise-Dirty_BKP.ts:266-289`) use the same checked transposition.
- **Randomness.** `randomFromList` and `_.random` are replaced by a choice oracle.
  - The Absolute Pitch generator takes `pick: (voice, segment) -> nat`. A list choice takes element `c % |list|`.
  - For every random choice there is a lemma saying that each output the source could produce is reached by some oracle (`TopVoiceReaches`, `LowerVoiceReaches`, `ChooseDescriptorReaches`, `RandomIntReaches`).

What the proofs show beyond the shape of the output:

- **Octave corrections.** Each correction table raises exactly the notes whose type lies below the question note's type within the octave. So every resolution note is the first note of its type at or above the question note, between `q` and `q + 11` (`Resolutions.ResolutionAboveQuestion`). The first and last notes are the question note itself. Every other note is the question note itself or a minor or major third, a fifth or a minor seventh above it.
- **Piano range.** A top-voice note is at most G6, so the octave corrections never leave the piano range.
- **Contrabass with three voices.** The third voice's register would start at Eb1 − 8 semitones = G0 (19). That is below A0, so the register shift fails exactly for this combination of settings (`AbsPitch.ShiftLeavesRangeExactly`). The generator also fails when the top register offers no note of an included degree (`AbsPitch.GetMelodicQuestionInC`). The source's own unit test (`absPitchExercise.spec.ts:28-36`) expects every register with two or three voices to succeed. The range-shifting helper is not part of this model, so it is unknown which side is right. The model keeps the checked shift and reports the failure as an error.
- **The fallback breaks the chosen intervals.** Take the default answers (Do, Re, Mi), the middle register, two voices and the harmonic intervals 3, 4, 5, 6 and 8. A top note of D3 has nothing below it at a permitted interval, so the lower voice copies it as a unison, an interval the settings exclude (`AbsPitch.DefaultSettingsFallBackToUnison`).

## Model

| member | source | states |
|---|---|---|
| Transposition.Transpose | src/app/exercise/utility/transpose.ts:14-21 | Succeeds exactly when the moved note is within 21..127. The result is then `semitones` away from the input. Otherwise the error names the note and the amount. |
| Transposition.TransposeByZero | src/app/exercise/utility/transpose.ts:17-21 | Moving an on-piano note by zero returns it unchanged. |
| Transposition.TransposeCompose | src/app/exercise/utility/transpose.ts:17-21 | When the intermediate note is on the piano, moving by `a` and then by `b` gives the same note as moving by `a + b`, or both fail. |
| Transposition.TransposeUndo | src/app/exercise/utility/transpose.ts:17-21 | Moving by `s` and then by `-s` returns the original note. |
| Transposition.TransposeNotesEmpty | src/app/exercise/utility/transpose.ts:24-26 | An empty list transposes to an empty list. |
| Transposition.TransposeNotes | src/app/exercise/utility/transpose.ts:28-31 | Succeeds exactly when every moved note is on the piano. The result is then the list moved element by element, with the same length and order. On failure, some element is the one off the piano. |
| Transposition.TransposeNotesCompose | src/app/exercise/utility/transpose.ts:28-31 | Once a list transposes by `a`, transposing the result by `b` succeeds exactly when transposing the list by `a + b` does, and then both give the same notes. |
| Transposition.TransposeSounding | src/app/exercise/utility/transpose.ts:14-31 | An event's `notes`, one note or a chord, moves exactly when all its notes stay on the piano, and then every note moves by the amount. |
| Transposition.TransposeEvents | src/app/exercise/utility/transpose.ts:33-37 | Events transpose exactly when every event's notes fit. Length is kept, each event's notes are moved and each duration is unchanged. |
| Intervals.Semitones | src/app/exercise/exercises/AbsolutePitch/absPitchExercise.ts:118-142 | Every option stands for at least one interval, and all of them lie within 0..12 semitones. |
| Intervals.OptionsPartitionOctave | src/app/exercise/exercises/AbsolutePitch/absPitchExercise.ts:118-142 | Each of 0..12 semitones belongs to exactly one option's set: 1→{0}, 2→{1,2}, 3→{3,4}, 4→{5}, 4#→{6}, 5→{7}, 6→{8,9}, 7→{10,11}, 8→{12}. |
| Intervals.Permitted | src/app/exercise/exercises/AbsolutePitch/absPitchExercise.ts:118-142 | The flattened list holds exactly the semitones of the chosen options, all within 0..12. |
| Intervals.PermittedByOption | src/app/exercise/exercises/AbsolutePitch/absPitchExercise.ts:118-142 | An interval is permitted exactly when its own option was chosen. |
| Ranges.AllNotesExactly | src/app/exercise/exercises/AbsolutePitch/absPitchExercise.ts:93-94 | A register's notes are exactly those between its bounds, in increasing order. |
| Ranges.ShiftRange | src/app/exercise/exercises/AbsolutePitch/absPitchExercise.ts:146 | Shifting a register succeeds exactly when both moved bounds are on the piano, and then both bounds move by the amount. |
| AbsPitch.RangeOf | src/app/exercise/exercises/AbsolutePitch/absPitchExercise.ts:57-64 | Every register option is a non-empty range on the piano. |
| AbsPitch.TopRange | src/app/exercise/exercises/AbsolutePitch/absPitchExercise.ts:102-111 | The top register keeps the option's highest note, and its lowest note shifted down a major third per extra voice is the option's lowest note. For valid settings it is non-empty and on the piano. |
| AbsPitch.NoteOptions | src/app/exercise/exercises/AbsolutePitch/absPitchExercise.ts:90-100 | A note is an option exactly when it is within the register and its degree in C is an included answer. |
| AbsPitch.NoteOptionsIncreasing | src/app/exercise/exercises/AbsolutePitch/absPitchExercise.ts:93-99 | The options keep the register's ascending order. |
| AbsPitch.ShiftLeavesRangeExactly | src/app/exercise/exercises/AbsolutePitch/absPitchExercise.ts:143-146 | Among valid settings, a lower register leaves the piano exactly for contrabass with three voices. |
| AbsPitch.TopVoice | src/app/exercise/exercises/AbsolutePitch/absPitchExercise.ts:112-115 | The top voice has one note per segment, each drawn from the top register's options. |
| AbsPitch.TopVoiceReaches | src/app/exercise/exercises/AbsolutePitch/absPitchExercise.ts:112-115 | Every sequence of options of the right length is the top voice for some random choice. |
| AbsPitch.Candidates | src/app/exercise/exercises/AbsolutePitch/absPitchExercise.ts:150-154 | A note is a candidate exactly when it is an option and lies a permitted interval below the upper note. |
| AbsPitch.LowerNote | src/app/exercise/exercises/AbsolutePitch/absPitchExercise.ts:149-161 | The lower note is a candidate when one exists, and otherwise the upper note itself. |
| AbsPitch.LowerNoteReaches | src/app/exercise/exercises/AbsolutePitch/absPitchExercise.ts:149-161 | Every note allowed by that rule is chosen for some random choice. |
| AbsPitch.LowerVoice | src/app/exercise/exercises/AbsolutePitch/absPitchExercise.ts:149-162 | A lower voice has one note per upper note, each chosen by the rule above. |
| AbsPitch.LowerVoiceReaches | src/app/exercise/exercises/AbsolutePitch/absPitchExercise.ts:149-162 | Every voice allowed by that rule is produced by some oracle. |
| AbsPitch.AddLowerVoices | src/app/exercise/exercises/AbsolutePitch/absPitchExercise.ts:143-164 | Fails exactly when a register leaves the piano. Otherwise the top voice is first, there are `numberOfVoices` voices of `numberOfSegments` notes each, and voice `k` is valid below voice `k − 1` in the register shifted down `4k` semitones. |
| AbsPitch.GetMelodicQuestionInC | src/app/exercise/exercises/AbsolutePitch/absPitchExercise.ts:86-282 | Fails exactly when the top register has no option or a register leaves the piano. Otherwise the voices are as above and the after-answer part is the resolution of the first top note, with half notes at both ends and eighth notes between. |
| AbsPitch.AfterAnswer | src/app/exercise/exercises/AbsolutePitch/absPitchExercise.ts:268-281 | One step per melody note, each a single event sounding that note. The duration is a half note exactly at the first and last index, and an eighth note elsewhere. |
| AbsPitch.ShiftStep | src/app/exercise/exercises/AbsolutePitch/absPitchExercise.ts:146 | Moving register `k − 1` down a major third gives register `k`, and fails exactly when register `k` would start below the piano. |
| AbsPitch.ResolutionPartOfMelody | src/app/exercise/exercises/AbsolutePitch/absPitchExercise.ts:264-281 | For a question note up to 116 the resolution exists, and its after-answer steps are six single-note parts. Each is a pattern note at or above the question note, half notes at indices 0 and 5, eighth notes elsewhere. |
| AbsPitch.VoiceIncluded | src/app/exercise/exercises/AbsolutePitch/absPitchExercise.ts:95-99 | Every note of every voice has an included degree, because a fallback copies a note that is already included. |
| AbsPitch.LowerNoteBelow | src/app/exercise/exercises/AbsolutePitch/absPitchExercise.ts:149-162 | A lower note is never above the note over it and at most an octave below it. It either copies that note or lies in its own shifted register. |
| AbsPitch.DefaultSettingsFallBackToUnison | src/app/exercise/exercises/AbsolutePitch/absPitchExercise.ts:155-160 | With the default answers, middle register, two voices and intervals 3, 4, 5, 6, 8, a top D3 gets a D3 below it although a unison is not permitted. |
| AbsPitch.DefaultNothingFitsBelowD3 | src/app/exercise/exercises/AbsolutePitch/absPitchExercise.ts:143-154 | Under those settings no lower-register option lies a permitted interval below D3. |
| AbsPitch.DefaultPermitted | src/app/exercise/exercises/AbsolutePitch/absPitchExercise.ts:118-142 | The interval options 3, 4, 5, 6, 8 permit exactly 3, 4, 5, 7, 8, 9 and 12 semitones. |
| AbsPitch.MiddleLowerPool | src/app/exercise/exercises/AbsolutePitch/absPitchExercise.ts:90-100 | With answers Do, Re, Mi, the register 39..60 offers only 40, 48, 50, 52 and 60. |
| ScaleDegrees.DegreeInC | src/app/exercise/exercises/AbsolutePitch/absPitchExercise.ts:168 | A note's degree in C is the degree whose offset is the note's pitch class. |
| Notes.NoteAt | src/app/exercise/exercises/AbsolutePitch/absPitchExercise.ts:209-211 | The rendered note has the given type's class and lies in the given octave. |
| Notes.NoteAtOctaveOf | src/app/exercise/exercises/AbsolutePitchMelodies/APMExercise-Dirty_BKP.ts:226-230 | Placing a type in a note's octave replaces that note's class by the type's class. |
| Resolutions.Pattern | src/app/exercise/exercises/AbsolutePitch/absPitchExercise.ts:173-208 | Every pattern has six notes, starts and ends on the question note's type, and uses only the intervals 0, 3, 4, 7 and 10 above it. |
| Resolutions.Corrections | src/app/exercise/exercises/AbsolutePitch/absPitchExercise.ts:213-245 | An index is raised exactly when its pattern note's class lies below the question note's class. |
| Resolutions.RenderFlat | src/app/exercise/exercises/AbsolutePitch/absPitchExercise.ts:209-211 | Every pattern note is placed in the question note's octave with its own class. |
| Resolutions.RaiseOctaves | src/app/exercise/exercises/AbsolutePitch/absPitchExercise.ts:213-245 | Succeeds exactly when every raised note stays on the piano. Then exactly the listed indices gain 12 semitones and the rest are unchanged. |
| Resolutions.Resolution | src/app/exercise/exercises/AbsolutePitch/absPitchExercise.ts:167-246 | A resolution has six notes, and its first and last notes are the question note. |
| Resolutions.ResolutionAboveQuestion | src/app/exercise/exercises/AbsolutePitch/absPitchExercise.ts:167-246 | For every question note up to 116 the resolution exists, and note `i` is the first note of pattern type `i` at or above the question note. |
| Seqs.Pick | src/app/exercise/exercises/AbsolutePitch/absPitchExercise.ts:113-115 | A random choice from a non-empty list is an element of the list. |
| Seqs.PickReaches | src/app/exercise/exercises/AbsolutePitch/absPitchExercise.ts:113-115 | Every element of a non-empty list is picked by some choice. |
| NoteNames.NoteDescriptorList | src/app/exercise/exercises/AbsolutePitchMelodies/APMExercise-Dirty_BKP.ts:53-114 | Twelve entries. Entry `i` has number `i` and a note type of class `i` spelled as the sharp half of its name. Each name sits at its own number, so the names are distinct. |
| NoteNames.KeyBy | src/app/exercise/exercises/AbsolutePitchMelodies/APMExercise-Dirty_BKP.ts:116-122 | The keys are the names in the list. Each key maps to the last entry carrying that name. |
| NoteNames.NoteNameToDescriptor | src/app/exercise/exercises/AbsolutePitchMelodies/APMExercise-Dirty_BKP.ts:116-122 | Every name is a key, and it maps to a descriptor carrying that name and that name's number. |
| NoteNames.NoteNameToDescriptorTotal | src/app/exercise/exercises/AbsolutePitchMelodies/APMExercise-Dirty_BKP.ts:116-122 | The keyed table is total, maps every name to the descriptor carrying it, and is injective. |
| NoteNames.ChooseDescriptor | src/app/exercise/exercises/AbsolutePitchMelodies/APMExercise-Dirty_BKP.ts:176-180 | Fails exactly when no answer is included. Otherwise the chosen descriptor is included and is the table's entry for its name. |
| NoteNames.ChooseDescriptorReaches | src/app/exercise/exercises/AbsolutePitchMelodies/APMExercise-Dirty_BKP.ts:176-180 | Every included name is chosen for some random choice. |
| NoteNames.RandomInt | src/app/exercise/exercises/AbsolutePitchMelodies/APMExercise-Dirty_BKP.ts:181-184 | The random integer lies between the two bounds inclusive, whichever comes first. |
| NoteNames.RandomIntReaches | src/app/exercise/exercises/AbsolutePitchMelodies/APMExercise-Dirty_BKP.ts:181-184 | Every integer between the bounds, in either order, is drawn for some random choice. |
| NoteNames.StartingNoteNumber | src/app/exercise/exercises/AbsolutePitchMelodies/APMExercise-Dirty_BKP.ts:181-184 | The low note is at least C2, and the high note, `noteNumber` above it, is at most C6. |
| NoteNames.QuestionNote | src/app/exercise/exercises/AbsolutePitchMelodies/APMExercise-Dirty_BKP.ts:226-230 | The question note has the descriptor's class and the low note's octave. |
| NoteNames.BackupPattern | src/app/exercise/exercises/AbsolutePitchMelodies/APMExercise-Dirty_BKP.ts:241-261 | A diatonic degree has six pattern notes, starting and ending on its own type. A chromatic degree has none. |
| NoteNames.BackupCorrections | src/app/exercise/exercises/AbsolutePitchMelodies/APMExercise-Dirty_BKP.ts:266-289 | An index is raised exactly when the degree is diatonic and its pattern note's class lies below the degree's class. |
| NoteNames.BackupResolution | src/app/exercise/exercises/AbsolutePitchMelodies/APMExercise-Dirty_BKP.ts:237-289 | A diatonic question note gets six notes starting and ending on itself, when the corrections stay on the piano. A chromatic one gets an empty melody. |
| NoteNames.BackupTablesAgree | src/app/exercise/exercises/AbsolutePitchMelodies/APMExercise-Dirty_BKP.ts:241-289 | On the seven diatonic degrees the patterns and corrections are the Absolute Pitch ones. On the other five they are empty. |
| NoteNames.BackupResolutionShape | src/app/exercise/exercises/AbsolutePitchMelodies/APMExercise-Dirty_BKP.ts:237-289 | For a diatonic question note the melody is the Absolute Pitch resolution. For a chromatic one it is empty. |
| NoteNames.BackupResolutionFits | src/app/exercise/exercises/AbsolutePitchMelodies/APMExercise-Dirty_BKP.ts:213-289 | The question note lies in C2..C6 (36..84), its degree is its descriptor's, and no correction leaves the piano. The melody is six notes at or above it when diatonic, empty otherwise. |
| NoteNames.BackupDuration | src/app/exercise/exercises/AbsolutePitchMelodies/APMExercise-Dirty_BKP.ts:310-315 | Index 0 is an eighth note, even when it is also the last index. After it, a quarter note exactly at index 2 and at the last index, and an eighth note elsewhere. Half notes are never used. |
| NoteNames.Part | src/app/exercise/exercises/AbsolutePitchMelodies/APMExercise-Dirty_BKP.ts:307-316 | One single-note event per melody note, in order. The first is an eighth note. After it, quarter notes at index 2 and at the last index, and eighth notes elsewhere. |
| NoteNames.GetQuestion | src/app/exercise/exercises/AbsolutePitchMelodies/APMExercise-Dirty_BKP.ts:171-323 | Fails exactly when no answer is included. Otherwise there is one segment whose right answer is included. Its part is empty for a chromatic answer, or else six notes resolving a question note of the answer's class in C2..C6 (36..84), durations 8n 8n 4n 8n 8n 4n. |
| NoteNames.BackupQuestionShape | src/app/exercise/exercises/AbsolutePitchMelodies/APMExercise-Dirty_BKP.ts:307-323 | The segment built from the chosen descriptor and the question note has that shape. |

## Left out

- Settings descriptors, answer lists and the other UI configuration of both exercises (`absPitchExercise.ts:300-422`, `APMExercise-Dirty_BKP.ts:125-135`, `:138-170`, `:372-375`): they configure the UI and have no behaviour of their own.
- The explanation component, the release notes and the spec files. They are a UI component, static data and tests. The conflicting test is discussed above.
- `composeExercise`, `melodicExercise`, `includedAnswersSettings`, `NotesRange`, `toNoteName`/`toNoteNumber`, `noteTypeToNote`, `getNoteType`, `noteTypeToScaleDegree`, `getScaleDegreeFromNote` and the solfège table `scaleDegreeToSolfegeNote` are not part of this model. They enter only through the integer assumptions stated above.
- Actual randomness: `randomFromList`, `_.random` and `_.shuffle` are replaced by an oracle.
- The shuffled start and end notes and `getPartFromNotes` in the backup file: they are computed but never used.
- The `console.error` in the fallback path: logging only.
- The commented-out blocks and the statement after `return` (`APMExercise-Dirty_BKP.ts:361-370`): they never run.
- Tone.js playback: durations are opaque tokens `8n`, `4n` and `2n`.
- Note-event fields other than `notes` and `duration`. Transposition leaves every other field alone, and the model carries none of them.
- Keys other than C: the question is generated in C and moved to the key by code that is not part of this model.
- AbsPitch.GetMelodicQuestionInC: an empty top-register pool is modelled as an error. The source instead goes on with an undefined note, whose later behaviour depends on helpers that are not part of this model.
- AbsPitch.GetMelodicQuestionInC: when the pool is empty and a register also leaves the piano, the model reports the empty pool. The error kind is not distinguished in the contract.
- AbsPitch.ValidSettings: it requires at least one segment and one to three voices. The settings controls guarantee this. With zero segments the source reads an undefined first note.
- Transposition.Transpose: note names are not modelled, only their MIDI numbers. Invalid names cannot occur.

=== FILE: abs_pitch.dfy ===
/** The Absolute Pitch question generator: a random top voice drawn from a
    register, greedy lower voices under harmonic-interval constraints, and the
    resolution melody of the first question note. Everything is in the key of C. */
module AbsPitch {
  import opened Results
  import opened Notes
  import opened Seqs
  import opened ScaleDegrees
  import opened Intervals
  import opened Transposition
  import opened Ranges
  import opened Resolutions

  /** The register options. */
  datatype RangeOption = High | Middle | Bass | Contrabass

  /** The register of each option: C4-G6, G2-E4, A1-C3, Eb1-Eb2. */
  function RangeOf(o: RangeOption): (r: NotesRange)
    ensures MinNote <= r.lowest <= r.highest <= MaxNote
  {
    match o
    case High => NotesRange(60, 91)
    case Middle => NotesRange(43, 64)
    case Bass => NotesRange(33, 48)
    case Contrabass => NotesRange(27, 39)
  }

  /** Gap between the registers of neighbouring voices. */
  const VoiceRangeGap: int := MajorThird

  /** The included answers are solfège names in the program; they are kept
      here as the scale degrees those names stand for (Do is `One`, Re is
      `Two`, and so on). */
  datatype Settings = Settings(
    notesRange: RangeOption,
    numberOfVoices: int,
    numberOfSegments: int,
    includedAnswers: set<ScaleDegree>,
    harmonicIntervals: seq<IntervalOption>)

  /** One to three voices and at least one segment. */
  predicate ValidSettings(s: Settings)
  {
    1 <= s.numberOfVoices <= 3 && s.numberOfSegments >= 1
  }

  /** The random source: the choice made for voice `k` (0 is the top voice)
      at segment `j`. */
  type Oracle = (nat, nat) -> nat

  /** The notes of a register whose degree in C is an included answer. */
  function NoteOptions(r: NotesRange, included: set<ScaleDegree>): (ns: seq<int>)
    ensures forall x :: x in ns <==> r.lowest <= x <= r.highest && DegreeInC(x) in included
  {
    AllNotesExactly(r);
    Filter(AllNotes(r), x => DegreeInC(x) in included)
  }

  /** The options come in increasing order, as the register lists them. */
  lemma NoteOptionsIncreasing(r: NotesRange, included: set<ScaleDegree>)
    ensures Increasing(NoteOptions(r, included))
  {
    AllNotesExactly(r);
    FilterIncreasing(AllNotes(r), x => DegreeInC(x) in included);
  }


  /** The top voice's register: the lowest bound raised by a major third per
      extra voice, the highest bound kept. */
  function TopRange(s: Settings): (r: NotesRange)
    ensures r.highest == RangeOf(s.notesRange).highest
    ensures r.lowest - VoiceRangeGap * (s.numberOfVoices - 1) == RangeOf(s.notesRange).lowest
    ensures ValidSettings(s) ==> MinNote <= r.lowest <= r.highest
  {
    var r := RangeOf(s.notesRange);
    NotesRange(r.lowest + VoiceRangeGap * (s.numberOfVoices - 1), r.highest)
  }

  /** The register of lower voice `k`: the option's register moved down a
      major third per step. */
  function LowerRange(s: Settings, k: int): NotesRange
  {
    var r := RangeOf(s.notesRange);
    NotesRange(r.lowest - VoiceRangeGap * k, r.highest - VoiceRangeGap * k)
  }

  function TopPool(s: Settings): seq<int>
  {
    NoteOptions(TopRange(s), s.includedAnswers)
  }

  function LowerPool(s: Settings, k: int): seq<int>
  {
    NoteOptions(LowerRange(s, k), s.includedAnswers)
  }

  /** Moving the registers down leaves the piano range before the last voice. */
  predicate ShiftLeavesRange(s: Settings)
  {
    RangeOf(s.notesRange).lowest - VoiceRangeGap * (s.numberOfVoices - 1) < MinNote
  }

  /** Only the contrabass register with three voices runs off the bottom. */
  lemma ShiftLeavesRangeExactly(s: Settings)
    requires ValidSettings(s)
    ensures ShiftLeavesRange(s) <==> s.notesRange == Contrabass && s.numberOfVoices == 3
  {
  }

  /** The top voice: one pick from the pool per segment. */
  function TopVoice(pool: seq<int>, n: nat, pick: Oracle): (v: seq<int>)
    requires |pool| > 0
    ensures |v| == n
    ensures forall j :: 0 <= j < n ==> v[j] in pool
  {
    var v := seq(n, (j: int) requires 0 <= j < n => Pick(pool, pick(0, j)));
    assert forall j :: 0 <= j < n ==> v[j] == Pick(pool, pick(0, j));
    v
  }

  /** The pool notes that sound a permitted interval below `upper`. */
  function Candidates(upper: int, pool: seq<int>, permitted: seq<int>): (cs: seq<int>)
    ensures forall x :: x in cs <==> x in pool && (upper - x) in permitted
  {
    Filter(pool, x => (upper - x) in permitted)
  }

  /** What a lower note may be: a pool note a permitted interval below the
      upper note, or, when no such note exists, the upper note itself. */
  predicate LowerNoteOk(upper: int, lower: int, pool: seq<int>, permitted: seq<int>)
  {
    if exists x :: x in pool && (upper - x) in permitted
    then lower in pool && (upper - lower) in permitted
    else lower == upper
  }

  /** One greedy choice of a lower note, with the fallback to the upper note. */
  function LowerNote(upper: int, pool: seq<int>, permitted: seq<int>, c: nat): (lower: int)
    ensures LowerNoteOk(upper, lower, pool, permitted)
  {
    var options := Candidates(upper, pool, permitted);
    if options == [] then upper else Pick(options, c)
  }

  /** Each note of `lower` is a valid choice below the same segment of `upper`. */
  predicate VoiceBelow(upper: seq<int>, lower: seq<int>, pool: seq<int>, permitted: seq<int>)
  {
    |lower| == |upper| && forall j :: 0 <= j < |upper| ==> LowerNoteOk(upper[j], lower[j], pool, permitted)
  }

  /** Voice `k` below `upper`, note by note, without backtracking. */
  function LowerVoice(upper: seq<int>, pool: seq<int>, permitted: seq<int>, k: nat, pick: Oracle): (v: seq<int>)
    ensures VoiceBelow(upper, v, pool, permitted)
  {
    var v := seq(|upper|, (j: int) requires 0 <= j < |upper| => LowerNote(upper[j], pool, permitted, pick(k, j)));
    assert forall j :: 0 <= j < |upper| ==> v[j] == LowerNote(upper[j], pool, permitted, pick(k, j));
    v
  }

  /** What follows a correct answer: one single-event part per note. */
  datatype AfterAnswerStep = AfterAnswerStep(partToPlay: seq<NoteEvent>)

  datatype MelodicQuestion = MelodicQuestion(
    segments: seq<seq<int>>,
    afterCorrectAnswer: seq<AfterAnswerStep>)

  /** Half notes at both ends of the melody, eighth notes between. */
  function AfterAnswer(melody: seq<int>): (steps: seq<AfterAnswerStep>)
    ensures |steps| == |melody|
    ensures forall i :: 0 <= i < |melody| ==>
              |steps[i].partToPlay| == 1 && steps[i].partToPlay[0].notes == Single(melody[i])
    ensures forall i :: 0 <= i < |melody| ==>
              steps[i].partToPlay[0].duration in {HalfNote, EighthNote}
              && (steps[i].partToPlay[0].duration == HalfNote <==> i == 0 || i == |melody| - 1)
  {
    seq(|melody|, (i: int) requires 0 <= i < |melody| =>
      AfterAnswerStep([NoteEvent(Single(melody[i]),
        if i == 0 then HalfNote
        else if i == |melody| - 1 then HalfNote
        else EighthNote)]))
  }

  /** The resolution part for question note `q`, described without the tables'
      octave corrections: each pattern note at or above `q`. */
  predicate IsResolutionPart(steps: seq<AfterAnswerStep>, q: int)
  {
    && |steps| == 6
    && forall i :: 0 <= i < 6 ==>
         steps[i].partToPlay == [NoteEvent(Single(Above(q, Pattern(DegreeInC(q))[i])),
           if i == 0 || i == 5 then HalfNote else EighthNote)]
  }

  /** The steps built from the resolution melody of `q` form its resolution part. */
  lemma ResolutionPartOfMelody(q: int)
    requires MinNote <= q <= MaxNote - 11
    ensures Resolution(q).Ok?
    ensures IsResolutionPart(AfterAnswer(Resolution(q).value), q)
  {
    ResolutionAboveQuestion(q);
  }

  /** The voices of a question for settings `s`: the top voice drawn from the
      top pool, each lower voice a valid choice below the voice above it. */
  predicate IsVoiceStack(s: Settings, v: seq<seq<int>>)
  {
    && |v| == s.numberOfVoices
    && (forall k :: 0 <= k < |v| ==> |v[k]| == s.numberOfSegments)
    && (|v| >= 1 ==> forall j :: 0 <= j < |v[0]| ==> v[0][j] in TopPool(s))
    && (forall k {:trigger LowerPool(s, k)} :: 1 <= k < |v| ==>
          VoiceBelow(v[k - 1], v[k], LowerPool(s, k), Permitted(s.harmonicIntervals)))
  }

  /** Everything the generator promises of a question for settings `s`. */
  predicate IsMelodicQuestion(s: Settings, q: MelodicQuestion)
  {
    && IsVoiceStack(s, q.segments)
    && |q.segments| >= 1
    && |q.segments[0]| >= 1
    && IsResolutionPart(q.afterCorrectAnswer, q.segments[0][0])
  }

  /** The loop of getMelodicQuestionInC adding lower voices under the top
      voice, each from a register a major third below the previous one. It
      fails exactly when a register leaves the piano range. */
  method AddLowerVoices(s: Settings, top: seq<int>, pick: Oracle) returns (r: Result<seq<seq<int>>>)
    requires ValidSettings(s)
    requires |top| == s.numberOfSegments
    requires forall j :: 0 <= j < |top| ==> top[j] in TopPool(s)
    ensures r.Err? <==> ShiftLeavesRange(s)
    ensures r.Ok? ==> IsVoiceStack(s, r.value) && r.value[0] == top
  {
    var notesRange := RangeOf(s.notesRange);
    var question := [top];
    var permitted := Permitted(s.harmonicIntervals);
    var currentVoiceRange := notesRange;
    while |question| < s.numberOfVoices
      invariant PartialStack(s, top, question)
      invariant currentVoiceRange == LowerRange(s, |question| - 1)
      invariant notesRange.lowest - VoiceRangeGap * (|question| - 1) >= MinNote
    {
      var lastVoice := question[|question| - 1];
      var shifted := ShiftRange(currentVoiceRange, -VoiceRangeGap);
      ShiftStep(s, |question|);
      if shifted.Err? {
        return Err(shifted.error);
      }
      currentVoiceRange := shifted.value;
      var noteOptionsForLowerVoice := NoteOptions(currentVoiceRange, s.includedAnswers);
      assert noteOptionsForLowerVoice == LowerPool(s, |question|);
      var lowerVoice := LowerVoice(lastVoice, noteOptionsForLowerVoice, permitted, |question|, pick);
      PartialStackGrows(s, top, question, lowerVoice);
      question := question + [lowerVoice];
    }
    PartialStackComplete(s, top, question);
    r := Ok(question);
  }

  /** The first voices of a stack on top of `top`, as the loop builds it. */
  predicate PartialStack(s: Settings, top: seq<int>, q: seq<seq<int>>)
  {
    && 1 <= |q| <= s.numberOfVoices
    && q[0] == top
    && (forall k :: 0 <= k < |q| ==> |q[k]| == s.numberOfSegments)
    && (forall k {:trigger LowerPool(s, k)} :: 1 <= k < |q| ==>
          VoiceBelow(q[k - 1], q[k], LowerPool(s, k), Permitted(s.harmonicIntervals)))
  }

  lemma PartialStackGrows(s: Settings, top: seq<int>, q: seq<seq<int>>, v: seq<int>)
    requires PartialStack(s, top, q) && |q| < s.numberOfVoices
    requires VoiceBelow(q[|q| - 1], v, LowerPool(s, |q|), Permitted(s.harmonicIntervals))
    ensures PartialStack(s, top, q + [v])
  {
    var q' := q + [v];
    forall k | 1 <= k < |q'|
      ensures VoiceBelow(q'[k - 1], q'[k], LowerPool(s, k), Permitted(s.harmonicIntervals))
    {
      if k < |q| {
        assert q'[k - 1] == q[k - 1] && q'[k] == q[k];
        assert VoiceBelow(q[k - 1], q[k], LowerPool(s, k), Permitted(s.harmonicIntervals));
      }
    }
  }

  lemma PartialStackComplete(s: Settings, top: seq<int>, q: seq<seq<int>>)
    requires PartialStack(s, top, q) && |q| == s.numberOfVoices
    requires forall j :: 0 <= j < |top| ==> top[j] in TopPool(s)
    ensures IsVoiceStack(s, q)
  {
  }

  /** Moving register `k - 1` down a major third gives register `k`, and
      fails exactly when that register starts below the piano. */
  lemma ShiftStep(s: Settings, k: int)
    requires ValidSettings(s)
    requires 1 <= k < s.numberOfVoices
    ensures ShiftRange(LowerRange(s, k - 1), -VoiceRangeGap).Ok? <==> RangeOf(s.notesRange).lowest - VoiceRangeGap * k >= MinNote
    ensures ShiftRange(LowerRange(s, k - 1), -VoiceRangeGap).Ok? ==>
              ShiftRange(LowerRange(s, k - 1), -VoiceRangeGap).value == LowerRange(s, k)
    ensures RangeOf(s.notesRange).lowest - VoiceRangeGap * k < MinNote ==> ShiftLeavesRange(s)
  {
  }

  /** getMelodicQuestionInC. It fails exactly when the top voice has nothing
      to draw from or a lower register leaves the piano range. */
  method GetMelodicQuestionInC(s: Settings, pick: Oracle) returns (r: Result<MelodicQuestion>)
    requires ValidSettings(s)
    ensures r.Err? <==> TopPool(s) == [] || ShiftLeavesRange(s)
    ensures r.Ok? ==> IsMelodicQuestion(s, r.value)
  {
    var notesRange := RangeOf(s.notesRange);
    assert notesRange.highest <= 91;
    // the top register's lowest bound is always raised within range
    var raised := Transpose(notesRange.lowest, VoiceRangeGap * (s.numberOfVoices - 1));
    assert raised.Ok?;
    var topVoiceRange := NotesRange(raised.value, notesRange.highest);
    assert topVoiceRange == TopRange(s);
    var noteOptions := NoteOptions(topVoiceRange, s.includedAnswers);
    if noteOptions == [] {
      return Err(NoOptions);
    }
    var randomNotesInC := TopVoice(noteOptions, s.numberOfSegments, pick);
    var question :- AddLowerVoices(s, randomNotesInC, pick);
    var qnote := randomNotesInC[0];
    assert qnote in TopPool(s);
    ResolutionAboveQuestion(qnote);
    // a top-voice note is low enough for every octave correction
    var resolution := Resolution(qnote);
    assert resolution.Ok?;
    var melody := resolution.value;
    ResolutionPartOfMelody(qnote);
    r := Ok(MelodicQuestion(question, AfterAnswer(melody)));
  }

  /** Every note of every voice has an included degree: lower notes come from
      a filtered pool, or copy the note above, which is included already. */
  lemma {:induction false} VoiceIncluded(s: Settings, v: seq<seq<int>>, k: nat)
    requires IsVoiceStack(s, v)
    requires k < |v|
    ensures forall j :: 0 <= j < |v[k]| ==> DegreeInC(v[k][j]) in s.includedAnswers
  {
    if k > 0 {
      VoiceIncluded(s, v, k - 1);
      var pool := LowerPool(s, k);
      assert VoiceBelow(v[k - 1], v[k], pool, Permitted(s.harmonicIntervals));
    }
  }

  /** Each lower note lies at most an octave below the note above it, and
      either comes from its own register or repeats the note above. */
  lemma LowerNoteBelow(s: Settings, v: seq<seq<int>>, k: nat, j: nat)
    requires IsVoiceStack(s, v)
    requires 1 <= k < |v| && j < s.numberOfSegments
    ensures v[k][j] <= v[k - 1][j] <= v[k][j] + Octave
    ensures v[k][j] == v[k - 1][j] ||
            (LowerRange(s, k).lowest <= v[k][j] <= LowerRange(s, k).highest)
  {
    var pool := LowerPool(s, k);
    assert VoiceBelow(v[k - 1], v[k], pool, Permitted(s.harmonicIntervals));
  }

  /** Every top voice drawn from the pool is produced by some choice of the
      random source. */
  lemma TopVoiceReaches(pool: seq<int>, v: seq<int>)
    requires |pool| > 0
    requires forall j :: 0 <= j < |v| ==> v[j] in pool
    ensures exists pick: Oracle :: TopVoice(pool, |v|, pick) == v
  {
    var pick: Oracle := (k: nat, j: nat) => if j < |v| then IndexOf(pool, v[j]) else 0;
    forall j | 0 <= j < |v|
      ensures TopVoice(pool, |v|, pick)[j] == v[j]
    {
      var i := IndexOf(pool, v[j]);
      assert pick(0, j) == i;
      assert i % |pool| == i;
      assert TopVoice(pool, |v|, pick)[j] == Pick(pool, pick(0, j));
    }
    assert TopVoice(pool, |v|, pick) == v;
  }

  /** A choice that selects `lower` below `upper`, when `lower` is a candidate. */
  function ChoiceFor(upper: int, lower: int, pool: seq<int>, permitted: seq<int>): nat
  {
    var options := Candidates(upper, pool, permitted);
    if lower in options then IndexOf(options, lower) else 0
  }

  /** Every allowed lower note is the greedy choice for some random choice. */
  lemma LowerNoteReaches(upper: int, lower: int, pool: seq<int>, permitted: seq<int>)
    requires LowerNoteOk(upper, lower, pool, permitted)
    ensures LowerNote(upper, pool, permitted, ChoiceFor(upper, lower, pool, permitted)) == lower
  {
    var options := Candidates(upper, pool, permitted);
    if options != [] {
      assert options[0] in pool && (upper - options[0]) in permitted;
      assert lower in options;
      var i := IndexOf(options, lower);
      assert ChoiceFor(upper, lower, pool, permitted) == i;
      SmallRemainder(i, |options|);
      assert options[i % |options|] == lower;
    } else {
      assert lower == upper;
    }
  }

  /** Every lower voice allowed below `upper` is produced by some choice of
      the random source: the greedy builder can reach all of them. */
  lemma LowerVoiceReaches(upper: seq<int>, lower: seq<int>, pool: seq<int>, permitted: seq<int>, k: nat)
    requires VoiceBelow(upper, lower, pool, permitted)
    ensures exists pick: Oracle :: LowerVoice(upper, pool, permitted, k, pick) == lower
  {
    var pick: Oracle := (k': nat, j: nat) =>
      if j < |upper| then ChoiceFor(upper[j], lower[j], pool, permitted) else 0;
    forall j | 0 <= j < |upper|
      ensures LowerVoice(upper, pool, permitted, k, pick)[j] == lower[j]
    {
      LowerNoteReaches(upper[j], lower[j], pool, permitted);
      assert pick(k, j) == ChoiceFor(upper[j], lower[j], pool, permitted);
      assert LowerVoice(upper, pool, permitted, k, pick)[j] == LowerNote(upper[j], pool, permitted, pick(k, j));
    }
    assert LowerVoice(upper, pool, permitted, k, pick) == lower;
  }

  /** The default answers Do, Re, Mi in the middle register with two voices
      and the default intervals 3, 4, 5, 6, 8: at any segment where the top
      note is D3, no lower note fits, and the lower voice repeats D3 as a
      unison, an interval that was not permitted. */
  lemma DefaultSettingsFallBackToUnison(s: Settings, v: seq<seq<int>>, j: nat)
    requires s.notesRange == Middle && s.numberOfVoices == 2
    requires s.includedAnswers == {One, Two, Three}
    requires s.harmonicIntervals == [Third, Fourth, Fifth, Sixth, Eighth]
    requires IsVoiceStack(s, v)
    requires j < s.numberOfSegments && v[0][j] == 50
    ensures v[1][j] == 50
    ensures Unison !in Permitted(s.harmonicIntervals)
  {
    DefaultNothingFitsBelowD3(s);
    assert VoiceBelow(v[0], v[1], LowerPool(s, 1), Permitted(s.harmonicIntervals));
    DefaultPermitted();
  }

  /** Under those settings no note of the second voice's pool lies a
      permitted interval below D3 (50). */
  lemma DefaultNothingFitsBelowD3(s: Settings)
    requires s.notesRange == Middle && s.numberOfVoices == 2
    requires s.includedAnswers == {One, Two, Three}
    requires s.harmonicIntervals == [Third, Fourth, Fifth, Sixth, Eighth]
    ensures forall x :: x in LowerPool(s, 1) ==> (50 - x) !in Permitted(s.harmonicIntervals)
  {
    var permitted := Permitted(s.harmonicIntervals);
    DefaultPermitted();
    assert permitted == [3, 4, 5, 7, 8, 9, 12];
    assert LowerRange(s, 1) == NotesRange(39, 60);
    forall x | x in LowerPool(s, 1)
      ensures (50 - x) !in permitted
    {
      MiddleLowerPool(LowerRange(s, 1), s.includedAnswers, x);
      assert 50 - x in {10, 2, 0, -2, -10};
    }
  }

  /** The sizes the default interval options permit. */
  lemma DefaultPermitted()
    ensures Permitted([Third, Fourth, Fifth, Sixth, Eighth]) == [3, 4, 5, 7, 8, 9, 12]
  {
    var opts := [Third, Fourth, Fifth, Sixth, Eighth];
    assert opts[1..] == [Fourth, Fifth, Sixth, Eighth];
    assert opts[1..][1..] == [Fifth, Sixth, Eighth];
    assert opts[1..][1..][1..] == [Sixth, Eighth];
    assert opts[1..][1..][1..][1..] == [Eighth];
    assert opts[1..][1..][1..][1..][1..] == [];
  }

  /** The second voice's pool under the default answers, middle register. */
  lemma MiddleLowerPool(r: NotesRange, included: set<ScaleDegree>, x: int)
    requires r.lowest == 39 && r.highest == 60 && included == {One, Two, Three}
    requires x in NoteOptions(r, included)
    ensures x in {40, 48, 50, 52, 60}
  {
    var c := x % 12;
    var d := DegreeInC(x);
    assert d in {One, Two, Three};
    assert d == One || d == Two || d == Three;
    assert Offset(d) == c;
    assert c == 0 || c == 2 || c == 4;
    assert x == 12 * (x / 12) + c;
    assert x / 12 == 3 || x / 12 == 4 || x / 12 == 5;
  }
}

=== FILE: intervals.dfy ===
/** Harmonic intervals between voices: the semitone constants and the
    interval options a user may permit. */
module Intervals {
  import opened Seqs

  const Unison: int := 0
  const MinorSecond: int := 1
  const MajorSecond: int := 2
  const MinorThird: int := 3
  const MajorThird: int := 4
  const PerfectFourth: int := 5
  const AugmentedFourth: int := 6
  const PerfectFifth: int := 7
  const MinorSixth: int := 8
  const MajorSixth: int := 9
  const MinorSeventh: int := 10
  const MajorSeventh: int := 11
  const Octave: int := 12

  /** The options '1', '2', '3', '4', '4#', '5', '6', '7', '8'. */
  datatype IntervalOption =
    | First | Second | Third | Fourth | SharpFourth | Fifth | Sixth | Seventh | Eighth

  /** The semitone sizes an option stands for; a tonal interval covers both
      its minor and major size. */
  function Semitones(o: IntervalOption): (r: seq<int>)
    ensures |r| > 0
    ensures forall x :: x in r ==> Unison <= x <= Octave
  {
    match o
    case First => [Unison]
    case Second => [MinorSecond, MajorSecond]
    case Third => [MinorThird, MajorThird]
    case Fourth => [PerfectFourth]
    case SharpFourth => [AugmentedFourth]
    case Fifth => [PerfectFifth]
    case Sixth => [MinorSixth, MajorSixth]
    case Seventh => [MinorSeventh, MajorSeventh]
    case Eighth => [Octave]
  }

  /** The option a semitone size from unison to octave belongs to. */
  function OptionOf(x: int): IntervalOption
    requires Unison <= x <= Octave
  {
    if x == 0 then First
    else if x <= 2 then Second
    else if x <= 4 then Third
    else if x == 5 then Fourth
    else if x == 6 then SharpFourth
    else if x == 7 then Fifth
    else if x <= 9 then Sixth
    else if x <= 11 then Seventh
    else Eighth
  }

  /** The options split unison..octave: each size belongs to exactly one option. */
  lemma OptionsPartitionOctave(x: int, o: IntervalOption)
    requires Unison <= x <= Octave
    ensures x in Semitones(o) <==> OptionOf(x) == o
  {
  }

  /** The permitted harmonic intervals: the options' sizes, concatenated in
      the options' order (a flat map). */
  function Permitted(opts: seq<IntervalOption>): (r: seq<int>)
    ensures forall x :: x in r <==> exists o :: o in opts && x in Semitones(o)
    ensures forall x :: x in r ==> Unison <= x <= Octave
  {
    if opts == [] then []
    else Semitones(opts[0]) + Permitted(opts[1..])
  }

  /** A size is permitted exactly when its own option is selected. */
  lemma PermittedByOption(opts: seq<IntervalOption>, x: int)
    requires Unison <= x <= Octave
    ensures x in Permitted(opts) <==> OptionOf(x) in opts
  {
    if x in Permitted(opts) {
      var o :| o in opts && x in Semitones(o);
      OptionsPartitionOctave(x, o);
    }
    if OptionOf(x) in opts {
      OptionsPartitionOctave(x, OptionOf(x));
    }
  }
}

=== FILE: note_names.dfy ===
/** The note-name exercise: twelve note descriptors, a random interval placed
    in the C2-C6 register, and the resolution melody of the chosen note, which
    exists for the seven diatonic degrees only. */
module NoteNames {
  import opened Results
  import N = Notes
  import opened Seqs
  import opened ScaleDegrees
  import opened Ranges
  import opened Resolutions

  /** The answers: one name per pitch class, black keys named both ways. */
  datatype NoteName =
    | C | CSharpDFlat | D | DSharpEFlat | E | F
    | FSharpGFlat | G | GSharpAFlat | A | ASharpBFlat | B

  function Label(n: NoteName): string
  {
    match n
    case C => "C"
    case CSharpDFlat => "C#/Db"
    case D => "D"
    case DSharpEFlat => "D#/Eb"
    case E => "E"
    case F => "F"
    case FSharpGFlat => "F#/Gb"
    case G => "G"
    case GSharpAFlat => "G#/Ab"
    case A => "A"
    case ASharpBFlat => "A#/Bb"
    case B => "B"
  }

  /** Semitones of the named class above C. */
  function Number(n: NoteName): (k: int)
    ensures 0 <= k < 12
  {
    match n
    case C => 0
    case CSharpDFlat => 1
    case D => 2
    case DSharpEFlat => 3
    case E => 4
    case F => 5
    case FSharpGFlat => 6
    case G => 7
    case GSharpAFlat => 8
    case A => 9
    case ASharpBFlat => 10
    case B => 11
  }

  datatype NoteDescriptor = NoteDescriptor(name: NoteName, noteNumber: int, absNote: N.NoteType)

  /** noteDescriptorList: entry `i` is the class `i` semitones above C, its
      names distinct, its note type spelled as the sharp half of its name. */
  function NoteDescriptorList(): (l: seq<NoteDescriptor>)
    ensures |l| == 12
    ensures forall i :: 0 <= i < 12 ==> l[i].noteNumber == i && N.Class(l[i].absNote) == i
    ensures forall i :: 0 <= i < 12 ==> N.Spelling(l[i].absNote) <= Label(l[i].name)
    ensures forall n :: l[Number(n)].name == n
    ensures forall i :: 0 <= i < 12 ==> Number(l[i].name) == i
  {
    [ NoteDescriptor(C, 0, N.C),
      NoteDescriptor(CSharpDFlat, 1, N.CSharp),
      NoteDescriptor(D, 2, N.D),
      NoteDescriptor(DSharpEFlat, 3, N.DSharp),
      NoteDescriptor(E, 4, N.E),
      NoteDescriptor(F, 5, N.F),
      NoteDescriptor(FSharpGFlat, 6, N.FSharp),
      NoteDescriptor(G, 7, N.G),
      NoteDescriptor(GSharpAFlat, 8, N.GSharp),
      NoteDescriptor(A, 9, N.A),
      NoteDescriptor(ASharpBFlat, 10, N.ASharp),
      NoteDescriptor(B, 11, N.B) ]
  }

  /** Entry `i` is the last one of `l` named `k`. */
  predicate LastNamed(l: seq<NoteDescriptor>, k: NoteName, i: int)
  {
    0 <= i < |l| && l[i].name == k && forall j :: i < j < |l| ==> l[j].name != k
  }

  /** Keys a list by name, a later entry replacing an earlier one (_.keyBy). */
  function KeyBy(l: seq<NoteDescriptor>): (m: map<NoteName, NoteDescriptor>)
    ensures m.Keys == set i | 0 <= i < |l| :: l[i].name
    ensures forall k :: k in m ==> m[k].name == k
    ensures forall k :: k in m ==> exists i :: LastNamed(l, k, i) && l[i] == m[k]
  {
    if l == [] then map[]
    else
      var last := l[|l| - 1];
      var m := KeyBy(l[..|l| - 1]);
      assert l == l[..|l| - 1] + [last];
      KeyByStep(l[..|l| - 1], last, m, m[last.name := last]);
      m[last.name := last]
  }

  /** Adding the last entry `last` to the keyed table `m` of the others. */
  lemma KeyByStep(init: seq<NoteDescriptor>, last: NoteDescriptor, m: map<NoteName, NoteDescriptor>,
                  m': map<NoteName, NoteDescriptor>)
    requires forall k :: k in m ==> exists i :: LastNamed(init, k, i) && init[i] == m[k]
    requires m' == m[last.name := last]
    ensures forall k :: k in m' ==> exists i :: LastNamed(init + [last], k, i) && (init + [last])[i] == m'[k]
  {
    var l := init + [last];
    forall k | k in m'
      ensures exists i :: LastNamed(l, k, i) && l[i] == m'[k]
    {
      if k == last.name {
        assert LastNamed(l, k, |l| - 1);
      } else {
        var i :| LastNamed(init, k, i) && init[i] == m[k];
        assert LastNamed(l, k, i);
      }
    }
  }

  /** noteNameToIntervalDescriptor. */
  function NoteNameToDescriptor(): (m: map<NoteName, NoteDescriptor>)
    ensures forall n :: n in m && m[n].name == n && m[n].noteNumber == Number(n)
  {
    KeyByNumbered(NoteDescriptorList());
    KeyBy(NoteDescriptorList())
  }

  /** The keyed table is total, sends each name to the descriptor carrying
      it, and is therefore injective. */
  lemma NoteNameToDescriptorTotal(n: NoteName, n': NoteName)
    ensures n in NoteNameToDescriptor() && n' in NoteNameToDescriptor()
    ensures NoteNameToDescriptor()[n] == NoteDescriptorList()[Number(n)]
    ensures NoteNameToDescriptor()[n].name == n
    ensures n != n' ==> NoteNameToDescriptor()[n] != NoteNameToDescriptor()[n']
  {
    var l := NoteDescriptorList();
    KeyByNumbered(l);
  }

  /** Keying a list that holds each name once, at the name's number. */
  lemma KeyByNumbered(l: seq<NoteDescriptor>)
    requires |l| == 12
    requires forall i :: 0 <= i < 12 ==> Number(l[i].name) == i
    requires forall n :: l[Number(n)].name == n
    ensures forall n :: n in KeyBy(l) && KeyBy(l)[n] == l[Number(n)]
  {
    var m := KeyBy(l);
    forall n
      ensures n in m && m[n] == l[Number(n)]
    {
      assert l[Number(n)].name == n;
      assert n in m;
      var i :| LastNamed(l, n, i) && l[i] == m[n];
      assert Number(l[i].name) == i;
    }
  }

  /** An entry of such a list sits at its name's number. */
  lemma EntryAtItsNumber(l: seq<NoteDescriptor>, d: NoteDescriptor)
    requires |l| == 12
    requires forall i :: 0 <= i < 12 ==> Number(l[i].name) == i
    requires d in l
    ensures d == l[Number(d.name)]
  {
    var i :| 0 <= i < |l| && l[i] == d;
  }

  /** The register the interval is placed in: C2 to C6. */
  const QuestionRange: NotesRange := NotesRange(36, 84)

  /** A random integer between the bounds, inclusive, in either order (_.random). */
  function RandomInt(lower: int, upper: int, c: nat): (r: int)
    ensures lower <= upper ==> lower <= r <= upper
    ensures upper < lower ==> upper <= r <= lower
  {
    if lower <= upper then lower + c % (upper - lower + 1)
    else upper + c % (lower - upper + 1)
  }

  /** Every integer between the bounds is drawn for some random choice. */
  lemma RandomIntReaches(lower: int, upper: int, x: int)
    requires lower <= x <= upper || upper <= x <= lower
    ensures exists c: nat :: RandomInt(lower, upper, c) == x
  {
    if lower <= upper {
      var c: nat := x - lower;
      SmallRemainder(c, upper - lower + 1);
      assert RandomInt(lower, upper, c) == x;
    } else {
      var c: nat := x - upper;
      SmallRemainder(c, lower - upper + 1);
      assert RandomInt(lower, upper, c) == x;
    }
  }

  /** The answer: a random descriptor among those whose name is included. */
  function ChooseDescriptor(included: set<NoteName>, c: nat): (r: Result<NoteDescriptor>)
    ensures r.Err? <==> included == {}
    ensures r.Ok? ==> r.value.name in included && r.value == NoteDescriptorList()[Number(r.value.name)]
  {
    var options := Filter(NoteDescriptorList(), (d: NoteDescriptor) => d.name in included);
    IncludedDescriptorsExist(included);
    if options == [] then Err(NoOptions)
    else
      var d := Pick(options, c);
      EntryAtItsNumber(NoteDescriptorList(), d);
      Ok(d)
  }

  /** Some descriptor carries an included name when any name is included. */
  lemma IncludedDescriptorsExist(included: set<NoteName>)
    ensures Filter(NoteDescriptorList(), (d: NoteDescriptor) => d.name in included) == [] <==> included == {}
  {
    NamedEntriesExist(NoteDescriptorList(), included, (d: NoteDescriptor) => d.name in included);
  }

  /** In a list holding every name, filtering by a non-empty set of names
      keeps something. */
  lemma NamedEntriesExist(l: seq<NoteDescriptor>, included: set<NoteName>, p: NoteDescriptor -> bool)
    requires forall n :: Number(n) < |l| && l[Number(n)].name == n
    requires forall d :: p(d) <==> d.name in included
    ensures Filter(l, p) == [] <==> included == {}
  {
    var f := Filter(l, p);
    if included != {} {
      var n :| n in included;
      var d := l[Number(n)];
      assert d in l;
      assert d in f;
    }
  }

  /** Every included name is the answer for some random choice. */
  lemma ChooseDescriptorReaches(included: set<NoteName>, n: NoteName)
    requires n in included
    ensures exists c: nat :: ChooseDescriptor(included, c).Ok? && ChooseDescriptor(included, c).value.name == n
  {
    var options := Filter(NoteDescriptorList(), (d: NoteDescriptor) => d.name in included);
    var d := NoteDescriptorList()[Number(n)];
    assert d in options;
    PickReaches(options, d);
    var c: nat :| Pick(options, c) == d;
    assert ChooseDescriptor(included, c).value == d;
  }

  /** The interval's low note: its high note, `noteNumber` semitones above,
      still fits under the register's top. */
  function StartingNoteNumber(desc: NoteDescriptor, c: nat): (start: int)
    requires 0 <= desc.noteNumber < 12
    ensures QuestionRange.lowest <= start
    ensures start + desc.noteNumber <= QuestionRange.highest
  {
    RandomInt(QuestionRange.lowest, QuestionRange.highest - desc.noteNumber, c)
  }

  /** The question note: the descriptor's note type at the low note's octave. */
  function QuestionNote(desc: NoteDescriptor, low: int): (q: int)
    requires N.Class(desc.absNote) == desc.noteNumber
    ensures N.ClassOf(q) == desc.noteNumber
    ensures N.OctaveOf(q) == N.OctaveOf(low)
  {
    N.NoteAt(desc.absNote, N.OctaveOf(low))
  }

  /** The resolution patterns of this exercise, written for the diatonic
      degrees only; any other degree has none. */
  function BackupPattern(d: ScaleDegree): (p: seq<N.NoteType>)
    ensures IsDiatonic(d) ==> |p| == 6 && N.Class(p[0]) == Offset(d) && N.Class(p[5]) == Offset(d)
    ensures !IsDiatonic(d) ==> p == []
  {
    match d
    case One => [N.C, N.C, N.E, N.G, N.ASharp, N.C]
    case Two => [N.D, N.D, N.F, N.C, N.A, N.D]
    case Three => [N.E, N.E, N.B, N.GSharp, N.D, N.E]
    case Four => [N.F, N.F, N.C, N.DSharp, N.A, N.F]
    case Five => [N.G, N.G, N.F, N.B, N.D, N.G]
    case Six => [N.A, N.A, N.G, N.E, N.CSharp, N.A]
    case Seven => [N.B, N.DSharp, N.FSharp, N.B, N.A, N.B]
    case _ => []
  }

  /** The octave corrections of this exercise, diatonic degrees only: the
      pattern notes below the question note's type. */
  function BackupCorrections(d: ScaleDegree): (c: set<int>)
    ensures forall i :: i in c <==> IsDiatonic(d) && 0 <= i < 6 && N.Class(BackupPattern(d)[i]) < Offset(d)
  {
    match d
    case Two => {3}
    case Three => {4}
    case Four => {2, 3}
    case Five => {2, 4}
    case Six => {2, 3, 4}
    case Seven => {1, 2, 4}
    case _ => {}
  }

  /** This exercise's tables agree with the Absolute Pitch tables on the
      diatonic degrees and are empty elsewhere. */
  lemma BackupTablesAgree(d: ScaleDegree)
    ensures IsDiatonic(d) ==> BackupPattern(d) == Pattern(d) && BackupCorrections(d) == Corrections(d)
    ensures !IsDiatonic(d) ==> BackupPattern(d) == [] && BackupCorrections(d) == {}
  {
  }

  /** The resolution melody of question note `q`: six notes starting and
      ending on `q` for a diatonic note, none for a chromatic one. */
  function BackupResolution(q: int): (r: Result<seq<int>>)
    ensures IsDiatonic(DegreeInC(q)) && r.Ok? ==> |r.value| == 6 && r.value[0] == q && r.value[5] == q
    ensures !IsDiatonic(DegreeInC(q)) ==> r == Ok([])
  {
    var d := DegreeInC(q);
    BackupTablesAgree(d);
    var r := RenderResolution(BackupPattern(d), BackupCorrections(d), N.OctaveOf(q));
    assert !IsDiatonic(d) ==> RenderFlat([], N.OctaveOf(q)) == [];
    assert IsDiatonic(d) ==> r == Resolution(q);
    r
  }

  /** The melody is the Absolute Pitch one for a diatonic question note and
      empty for a chromatic one. */
  lemma BackupResolutionShape(q: int)
    requires N.MinNote <= q <= N.MaxNote - 11
    ensures IsDiatonic(DegreeInC(q)) ==> BackupResolution(q) == Resolution(q)
    ensures !IsDiatonic(DegreeInC(q)) ==> BackupResolution(q) == Ok([])
  {
    BackupTablesAgree(DegreeInC(q));
    if !IsDiatonic(DegreeInC(q)) {
      assert RenderFlat([], N.OctaveOf(q)) == [];
    }
  }

  /** The first note is an eighth note even when it is also the last; after
      it, quarter notes at index 2 and at the end, eighth notes elsewhere. */
  function BackupDuration(i: int, length: int): (d: N.Duration)
    ensures i == 0 ==> d == N.EighthNote
    ensures i != 0 ==> (d == N.QuarterNote <==> i == 2 || i == length - 1)
    ensures d != N.HalfNote
  {
    if i == 0 then N.EighthNote
    else if i == length - 1 || i == 2 then N.QuarterNote
    else N.EighthNote
  }

  /** One single-note event per melody note, in order. */
  function Part(melody: seq<int>): (part: seq<N.NoteEvent>)
    ensures |part| == |melody|
    ensures forall i :: 0 <= i < |melody| ==> part[i].notes == N.Single(melody[i])
    ensures |melody| > 0 ==> part[0].duration == N.EighthNote
    ensures forall i :: 0 < i < |melody| ==>
              part[i].duration == if i == 2 || i == |melody| - 1 then N.QuarterNote else N.EighthNote
  {
    seq(|melody|, (i: int) requires 0 <= i < |melody| => N.NoteEvent(N.Single(melody[i]), BackupDuration(i, |melody|)))
  }

  datatype Segment = Segment(rightAnswer: NoteName, partToPlay: seq<N.NoteEvent>)

  datatype Question = Question(segments: seq<Segment>)

  /** What a question promises: one segment whose answer is included and
      whose part is the resolution melody of a question note of the answer's
      class between C2 and C6, or nothing for a chromatic answer. */
  predicate IsBackupQuestion(included: set<NoteName>, q: Question)
  {
    && |q.segments| == 1
    && q.segments[0].rightAnswer in included
    && var part := q.segments[0].partToPlay;
       var d := DegreeOfOffset(Number(q.segments[0].rightAnswer));
       if !IsDiatonic(d) then part == []
       else
         && |part| == 6
         && part[0].notes.Single?
         && var qn := part[0].notes.note;
            && N.ClassOf(qn) == Number(q.segments[0].rightAnswer)
            && QuestionRange.lowest <= qn <= QuestionRange.highest
            && forall i :: 0 <= i < 6 ==>
                 part[i] == N.NoteEvent(N.Single(Above(qn, Pattern(d)[i])),
                                        if i == 2 || i == 5 then N.QuarterNote else N.EighthNote)
  }

  /** getQuestion: fails exactly when no answer is included. */
  function GetQuestion(included: set<NoteName>, descriptorPick: nat, startPick: nat): (r: Result<Question>)
    ensures r.Err? <==> included == {}
    ensures r.Ok? ==> IsBackupQuestion(included, r.value)
  {
    var chosen := ChooseDescriptor(included, descriptorPick);
    if chosen.Err? then Err(chosen.error)
    else
      var q := QuestionFor(chosen.value, startPick);
      QuestionForShape(included, chosen.value, startPick);
      Ok(q)
  }

  /** The question for a chosen descriptor: its interval placed in the
      register, and the resolution of the question note as the part. */
  function QuestionFor(desc: NoteDescriptor, startPick: nat): Question
    requires desc == NoteDescriptorList()[Number(desc.name)]
  {
    var start := StartingNoteNumber(desc, startPick);
    var qnote := QuestionNote(desc, start);
    BackupResolutionFits(desc, start, qnote);
    var melody := BackupResolution(qnote).value;
    Question([Segment(desc.name, Part(melody))])
  }

  lemma QuestionForShape(included: set<NoteName>, desc: NoteDescriptor, startPick: nat)
    requires desc.name in included
    requires desc == NoteDescriptorList()[Number(desc.name)]
    ensures IsBackupQuestion(included, QuestionFor(desc, startPick))
  {
    var start := StartingNoteNumber(desc, startPick);
    BackupQuestionShape(included, desc, start, QuestionNote(desc, start));
  }

  /** The one segment built from the chosen descriptor is a question. */
  lemma BackupQuestionShape(included: set<NoteName>, desc: NoteDescriptor, start: int, qnote: int)
    requires desc.name in included
    requires desc == NoteDescriptorList()[Number(desc.name)]
    requires QuestionRange.lowest <= start
    requires start + desc.noteNumber <= QuestionRange.highest
    requires qnote == QuestionNote(desc, start)
    ensures BackupResolution(qnote).Ok?
    ensures IsBackupQuestion(included, Question([Segment(desc.name, Part(BackupResolution(qnote).value))]))
  {
    BackupResolutionFits(desc, start, qnote);
    var melody := BackupResolution(qnote).value;
    var part := Part(melody);
    var d := DegreeOfOffset(Number(desc.name));
    if IsDiatonic(d) {
      assert part[0].notes.note == qnote by {
        assert melody[0] == Above(qnote, Pattern(d)[0]);
        WrapWithinOctave(0);
      }
    }
  }

  /** The question note is low enough that no octave correction fails, and
      its melody has the promised shape. */
  lemma BackupResolutionFits(desc: NoteDescriptor, start: int, qnote: int)
    requires desc == NoteDescriptorList()[Number(desc.name)]
    requires QuestionRange.lowest <= start <= QuestionRange.highest
    requires qnote == QuestionNote(desc, start)
    ensures QuestionRange.lowest <= qnote <= start + desc.noteNumber
    ensures qnote < 96
    ensures BackupResolution(qnote).Ok?
    ensures DegreeInC(qnote) == DegreeOfOffset(Number(desc.name))
    ensures IsDiatonic(DegreeInC(qnote)) ==>
              |BackupResolution(qnote).value| == 6
              && forall i :: 0 <= i < 6 ==>
                   BackupResolution(qnote).value[i] == Above(qnote, Pattern(DegreeInC(qnote))[i])
    ensures !IsDiatonic(DegreeInC(qnote)) ==> BackupResolution(qnote).value == []
  {
    assert 2 <= N.OctaveOf(start) <= 6;
    assert 12 * (N.OctaveOf(start) + 1) <= start;
    assert qnote == 12 * (N.OctaveOf(start) + 1) + Number(desc.name);
    DegreeOfOffsetInverse(DegreeInC(qnote));
    BackupResolutionShape(qnote);
    ResolutionAboveQuestion(qnote);
  }
}

=== FILE: notes.dfy ===
/** Pitches as MIDI note numbers, and the helpers the exercises use to move
    between a number, its note type (pitch class) and its octave. */
module Notes {

  /** Lowest and highest note number a transposition may produce (A0 and G9). */
  const MinNote: int := 21
  const MaxNote: int := 127

  predicate InRange(n: int) {
    MinNote <= n <= MaxNote
  }

  /** The twelve note types, spelled with sharps. */
  datatype NoteType = C | CSharp | D | DSharp | E | F | FSharp | G | GSharp | A | ASharp | B

  /** Semitones of a note type above C. */
  function Class(t: NoteType): (c: int)
    ensures 0 <= c < 12
  {
    match t
    case C => 0
    case CSharp => 1
    case D => 2
    case DSharp => 3
    case E => 4
    case F => 5
    case FSharp => 6
    case G => 7
    case GSharp => 8
    case A => 9
    case ASharp => 10
    case B => 11
  }

  /** The note type as the player spells it ("C#"). */
  function Spelling(t: NoteType): string
  {
    match t
    case C => "C"
    case CSharp => "C#"
    case D => "D"
    case DSharp => "D#"
    case E => "E"
    case F => "F"
    case FSharp => "F#"
    case G => "G"
    case GSharp => "G#"
    case A => "A"
    case ASharp => "A#"
    case B => "B"
  }

  /** Pitch class of a note number (getNoteType, as a class). */
  function ClassOf(n: int): (c: int)
    ensures 0 <= c < 12
  {
    n % 12
  }

  /** Octave of a note number in scientific pitch notation: 60 is C4. */
  function OctaveOf(n: int): int
  {
    n / 12 - 1
  }

  /** The note of type `t` in `octave` (noteTypeToNote); no range check. */
  function NoteAt(t: NoteType, octave: int): (n: int)
    ensures ClassOf(n) == Class(t)
    ensures OctaveOf(n) == octave
  {
    12 * (octave + 1) + Class(t)
  }

  /** Any note of the same octave as `n` differs from `n` only by class. */
  lemma NoteAtOctaveOf(t: NoteType, n: int)
    ensures NoteAt(t, OctaveOf(n)) == n - ClassOf(n) + Class(t)
  {
  }

  /** The relative durations the player understands: "8n", "4n" and "2n". */
  datatype Duration = EighthNote | QuarterNote | HalfNote

  /** What an event sounds: one note or several at once. */
  datatype Sounding = Single(note: int) | Chord(notes: seq<int>)

  /** A timed note event handed to the player. */
  datatype NoteEvent = NoteEvent(notes: Sounding, duration: Duration)
}

=== FILE: ranges.dfy ===
/** A register: an inclusive span of note numbers, its notes, and its
    transposition as a whole. */
module Ranges {
  import opened Results
  import opened Notes
  import opened Seqs
  import opened Transposition

  datatype NotesRange = NotesRange(lowest: int, highest: int)

  /** Every note of the range, from the lowest up to the highest. */
  function AllNotes(r: NotesRange): (ns: seq<int>)
    ensures |ns| == if r.lowest <= r.highest then r.highest - r.lowest + 1 else 0
    ensures forall i :: 0 <= i < |ns| ==> ns[i] == r.lowest + i
  {
    if r.lowest <= r.highest
    then seq(r.highest - r.lowest + 1, i => r.lowest + i)
    else []
  }

  /** The enumeration holds exactly the notes between the bounds, in increasing order. */
  lemma AllNotesExactly(r: NotesRange)
    ensures forall x :: x in AllNotes(r) <==> r.lowest <= x <= r.highest
    ensures Increasing(AllNotes(r))
  {
    forall x | r.lowest <= x <= r.highest
      ensures x in AllNotes(r)
    {
      assert AllNotes(r)[x - r.lowest] == x;
    }
  }

  /** Transposes both bounds; either bound leaving the piano range is an error. */
  function ShiftRange(r: NotesRange, s: int): (res: Result<NotesRange>)
    ensures res.Ok? <==> InRange(r.lowest + s) && InRange(r.highest + s)
    ensures res.Ok? ==> res.value.lowest - r.lowest == s && res.value.highest - r.highest == s
  {
    var lowest :- Transpose(r.lowest, s);
    var highest :- Transpose(r.highest, s);
    Ok(NotesRange(lowest, highest))
  }
}

=== FILE: resolution.dfy ===
/** The resolution melody played after a correct answer: a fixed six-note
    pattern per scale degree, rendered at the question note's octave, with
    some notes raised by an octave. */
module Resolutions {
  import opened Results
  import opened Notes
  import opened ScaleDegrees
  import opened Intervals
  import opened Transposition

  /** The pattern for each degree of the question note, as note types.
      Each starts and ends on the question note's own type, and every note is
      a minor or major third, fifth or minor seventh above it, or the note itself. */
  function Pattern(d: ScaleDegree): (p: seq<NoteType>)
    ensures |p| == 6
    ensures Class(p[0]) == Offset(d) && Class(p[5]) == Offset(d)
    ensures forall i :: 0 <= i < 6 ==> (Class(p[i]) - Offset(d)) % 12 in {0, 3, 4, 7, 10}
  {
    match d
    case One => [C, C, E, G, ASharp, C]
    case FlatTwo => [CSharp, F, CSharp, GSharp, B, CSharp]
    case Two => [D, D, F, C, A, D]
    case FlatThree => [DSharp, FSharp, DSharp, CSharp, ASharp, DSharp]
    case Three => [E, E, B, GSharp, D, E]
    case Four => [F, F, C, DSharp, A, F]
    case SharpFour => [FSharp, CSharp, FSharp, E, ASharp, FSharp]
    case Five => [G, G, F, B, D, G]
    case FlatSix => [GSharp, FSharp, GSharp, C, DSharp, GSharp]
    case Six => [A, A, G, E, CSharp, A]
    case FlatSeven => [ASharp, GSharp, ASharp, F, D, ASharp]
    case Seven => [B, DSharp, FSharp, B, A, B]
  }

  /** The indices raised by an octave after rendering. They are exactly the
      notes whose type lies below the question note's type within the octave,
      so the first and last notes are never raised. */
  function Corrections(d: ScaleDegree): (c: set<int>)
    ensures forall i :: i in c <==> 0 <= i < 6 && Class(Pattern(d)[i]) < Offset(d)
  {
    match d
    case One => {}
    case FlatTwo => {}
    case Two => {3}
    case FlatThree => {3}
    case Three => {4}
    case Four => {2, 3}
    case SharpFour => {1, 3}
    case Five => {2, 4}
    case FlatSix => {1, 3, 4}
    case Six => {2, 3, 4}
    case FlatSeven => {1, 3, 4}
    case Seven => {1, 2, 4}
  }

  /** Every note type of the pattern placed in one octave. */
  function RenderFlat(p: seq<NoteType>, octave: int): (ns: seq<int>)
    ensures |ns| == |p|
    ensures forall i :: 0 <= i < |p| ==> ClassOf(ns[i]) == Class(p[i]) && OctaveOf(ns[i]) == octave
  {
    seq(|p|, i requires 0 <= i < |p| => NoteAt(p[i], octave))
  }

  /** Raises by an octave, one by one from index `from` on, the notes whose
      index is in `corr`; the first raise leaving the piano range fails. */
  function RaiseOctaves(ns: seq<int>, corr: set<int>, from: nat): (r: Result<seq<int>>)
    requires from <= |ns|
    ensures r.Ok? <==> forall i :: from <= i < |ns| && i in corr ==> InRange(ns[i] + Octave)
    ensures r.Ok? ==> |r.value| == |ns|
    ensures r.Ok? ==> forall i :: 0 <= i < |ns| ==>
                        r.value[i] == if from <= i && i in corr then ns[i] + Octave else ns[i]
    decreases |ns| - from
  {
    if from == |ns| then Ok(ns)
    else if from in corr then
      var raised :- Transpose(ns[from], Octave);
      RaiseOctaves(ns[from := raised], corr, from + 1)
    else RaiseOctaves(ns, corr, from + 1)
  }

  /** A pattern rendered at `octave`, then octave-corrected. */
  function RenderResolution(p: seq<NoteType>, corr: set<int>, octave: int): Result<seq<int>>
  {
    RaiseOctaves(RenderFlat(p, octave), corr, 0)
  }

  /** The resolution melody for question note `q`, computed in the key of C. */
  function Resolution(q: int): (r: Result<seq<int>>)
    ensures r.Ok? ==> |r.value| == 6 && r.value[0] == q && r.value[5] == q
  {
    var d := DegreeInC(q);
    var r := RenderResolution(Pattern(d), Corrections(d), OctaveOf(q));
    assert r.Ok? ==> r.value[0] == RenderFlat(Pattern(d), OctaveOf(q))[0] by {
      assert 0 !in Corrections(d);
    }
    r
  }

  /** The note of type `t` at or above `q` and less than an octave above it. */
  function Above(q: int, t: NoteType): (n: int)
    ensures q <= n < q + 12 && ClassOf(n) == Class(t)
  {
    q + (Class(t) - ClassOf(q)) % 12
  }

  /** Independent account of the resolution: for a question note low enough
      to raise, every note of the melody is the pattern's note type taken at
      or above the question note, within the octave above it. */
  lemma ResolutionAboveQuestion(q: int)
    requires MinNote <= q <= MaxNote - 11
    ensures Resolution(q).Ok?
    ensures forall i :: 0 <= i < 6 ==> Resolution(q).value[i] == Above(q, Pattern(DegreeInC(q))[i])
  {
    var d := DegreeInC(q);
    var p := Pattern(d);
    var flat := RenderFlat(p, OctaveOf(q));
    forall i | 0 <= i < 6
      ensures flat[i] == q - ClassOf(q) + Class(p[i])
    {
      NoteAtOctaveOf(p[i], q);
    }
    var r := RaiseOctaves(flat, Corrections(d), 0);
    assert r.Ok?;
    forall i | 0 <= i < 6
      ensures r.value[i] == Above(q, p[i])
    {
      WrapWithinOctave(Class(p[i]) - ClassOf(q));
    }
  }

  /** A difference of two classes, reduced into the octave. */
  lemma WrapWithinOctave(x: int)
    requires -12 < x < 12
    ensures x % 12 == if x < 0 then x + 12 else x
  {
  }
}

=== FILE: results.dfy ===
/** Failure-compatible result type shared by the model, and the errors the
    modelled code raises. */
module Results {

  /** The two ways the modelled code stops without a value:
      - OutOfRange: a transposition left the piano range (the `Error` thrown
        by transpose.ts);
      - NoOptions: a random pick was asked of an empty candidate list, which
        in the source yields `undefined` and later fails. */
  datatype Error = OutOfRange(note: int, semitones: int) | NoOptions

  datatype Result<+T> = Ok(value: T) | Err(error: Error) {

    predicate IsFailure() {
      Err?
    }

    function PropagateFailure<U>(): Result<U>
      requires Err?
    {
      Err(error)
    }

    function Extract(): T
      requires Ok?
    {
      value
    }
  }
}

=== FILE: scale_degrees.dfy ===
/** The twelve chromatic scale degrees and the degree of a note in the key of C. */
module ScaleDegrees {
  import opened Notes

  /** In order of semitones above the tonic: 1, b2, 2, b3, 3, 4, #4, 5, b6, 6, b7, 7. */
  datatype ScaleDegree =
    | One | FlatTwo | Two | FlatThree | Three | Four
    | SharpFour | Five | FlatSix | Six | FlatSeven | Seven

  /** Semitones above the tonic. */
  function Offset(d: ScaleDegree): (k: int)
    ensures 0 <= k < 12
  {
    match d
    case One => 0
    case FlatTwo => 1
    case Two => 2
    case FlatThree => 3
    case Three => 4
    case Four => 5
    case SharpFour => 6
    case Five => 7
    case FlatSix => 8
    case Six => 9
    case FlatSeven => 10
    case Seven => 11
  }

  /** The degree `k` semitones above the tonic. */
  function DegreeOfOffset(k: int): (d: ScaleDegree)
    requires 0 <= k < 12
    ensures Offset(d) == k
  {
    if k == 0 then One
    else if k == 1 then FlatTwo
    else if k == 2 then Two
    else if k == 3 then FlatThree
    else if k == 4 then Three
    else if k == 5 then Four
    else if k == 6 then SharpFour
    else if k == 7 then Five
    else if k == 8 then FlatSix
    else if k == 9 then Six
    else if k == 10 then FlatSeven
    else Seven
  }

  lemma DegreeOfOffsetInverse(d: ScaleDegree)
    ensures DegreeOfOffset(Offset(d)) == d
  {
  }

  /** Scale degree of a note in the key of C: its class, read as a degree. */
  function DegreeInC(n: int): (d: ScaleDegree)
    ensures Offset(d) == ClassOf(n)
  {
    DegreeOfOffset(ClassOf(n))
  }

  /** The degrees of the C major scale. */
  predicate IsDiatonic(d: ScaleDegree)
  {
    d.One? || d.Two? || d.Three? || d.Four? || d.Five? || d.Six? || d.Seven?
  }
}

=== FILE: seqs.dfy ===
/** Sequence helpers: filtering, and the random pick from a list modelled as
    an explicit choice. */
module Seqs {

  /** Keeps, in order, the elements of `s` that satisfy `p` (Array.filter). */
  function Filter<T(==,!new)>(s: seq<T>, p: T -> bool): (r: seq<T>)
    ensures |r| <= |s|
    ensures forall x :: x in r <==> x in s && p(x)
  {
    if s == [] then []
    else (if p(s[0]) then [s[0]] else []) + Filter(s[1..], p)
  }

  /** Strictly increasing sequences. */
  predicate Increasing(s: seq<int>)
  {
    forall i, j :: 0 <= i < j < |s| ==> s[i] < s[j]
  }

  /** Filtering keeps the order of what it keeps. */
  lemma {:induction false} FilterIncreasing(s: seq<int>, p: int -> bool)
    requires Increasing(s)
    ensures Increasing(Filter(s, p))
  {
    if s != [] {
      FilterIncreasing(s[1..], p);
      var rest := Filter(s[1..], p);
      forall k | 0 <= k < |rest|
        ensures s[0] < rest[k]
      {
        assert rest[k] in s[1..];
        var m :| 0 <= m < |s[1..]| && s[1..][m] == rest[k];
        assert s[m + 1] == rest[k];
      }
      var r := Filter(s, p);
      if p(s[0]) {
        assert r == [s[0]] + rest;
        forall i, j | 0 <= i < j < |r|
          ensures r[i] < r[j]
        {
          if i == 0 {
            assert r[j] == rest[j - 1];
          } else {
            assert r[i] == rest[i - 1] && r[j] == rest[j - 1];
          }
        }
      } else {
        assert r == rest;
      }
    }
  }

  /** The element a random choice `c` selects from a non-empty list
      (randomFromList): any choice selects some element of the list. */
  function Pick<T>(xs: seq<T>, c: nat): (r: T)
    requires |xs| > 0
    ensures r in xs
  {
    xs[c % |xs|]
  }

  /** Position of an element in a list. */
  function IndexOf<T(==)>(xs: seq<T>, x: T): (i: nat)
    requires x in xs
    ensures i < |xs| && xs[i] == x
  {
    if xs[0] == x then 0 else 1 + IndexOf(xs[1..], x)
  }

  /** Every element of the list is selected by some choice. */
  lemma PickReaches<T>(xs: seq<T>, x: T)
    requires x in xs
    ensures exists c: nat :: Pick(xs, c) == x
  {
    var i := IndexOf(xs, x);
    SmallRemainder(i, |xs|);
    assert Pick(xs, i) == x;
  }

  /** A choice below the list's length selects its own position. */
  lemma SmallRemainder(c: nat, m: int)
    requires c < m
    ensures c % m == c
  {
  }
}

=== FILE: transpose.dfy ===
/** Transposition by a signed number of semitones, with the piano-range check,
    for a single note, a list of notes and a list of note events. */
module Transposition {
  import opened Results
  import opened Notes

  /** Transposes one note; a result outside [MinNote, MaxNote] is an error. */
  function Transpose(n: int, semitones: int): (r: Result<int>)
    ensures r.Ok? <==> InRange(n + semitones)
    ensures r.Ok? ==> r.value - n == semitones
    ensures r.Err? ==> r.error == OutOfRange(n, semitones)
  {
    var moved := n + semitones;
    if moved > MaxNote || moved < MinNote then Err(OutOfRange(n, semitones))
    else Ok(moved)
  }

  /** Transposing by zero gives the note back exactly when the note is in range. */
  lemma TransposeByZero(n: int)
    ensures Transpose(n, 0).Ok? <==> InRange(n)
    ensures Transpose(n, 0).Ok? ==> Transpose(n, 0).value == n
  {
  }

  /** Two transpositions with an in-range intermediate compose into one. */
  lemma TransposeCompose(n: int, a: int, b: int)
    requires Transpose(n, a).Ok?
    ensures Transpose(Transpose(n, a).value, b) == Transpose(n, a + b)
            || (Transpose(n, a + b).Err? && Transpose(Transpose(n, a).value, b).Err?)
  {
  }

  /** Transposing back by the opposite amount undoes a transposition of an in-range note. */
  lemma TransposeUndo(n: int, s: int)
    requires InRange(n) && Transpose(n, s).Ok?
    ensures Transpose(Transpose(n, s).value, -s) == Ok(n)
  {
  }

  /** Every note of the list shifted by `s`, without any range check. */
  function Shift(ns: seq<int>, s: int): (r: seq<int>)
    ensures |r| == |ns|
    ensures forall i :: 0 <= i < |ns| ==> r[i] == ns[i] + s
  {
    seq(|ns|, i requires 0 <= i < |ns| => ns[i] + s)
  }

  /** Transposes a list of notes element by element; the first out-of-range
      element makes the whole call fail with that element's error. */
  function TransposeNotes(ns: seq<int>, s: int): (r: Result<seq<int>>)
    ensures r.Ok? <==> forall i :: 0 <= i < |ns| ==> InRange(ns[i] + s)
    ensures r.Ok? ==> r.value == Shift(ns, s)
    ensures r.Err? ==> exists i :: 0 <= i < |ns| && !InRange(ns[i] + s)
                                   && r.error == OutOfRange(ns[i], s)
                                   && forall j :: 0 <= j < i ==> InRange(ns[j] + s)
  {
    if ns == [] then Ok([])
    else
      var first :- Transpose(ns[0], s);
      var rest :- TransposeNotes(ns[1..], s);
      Ok([first] + rest)
  }

  /** The empty list transposes to the empty list, whatever the amount. */
  lemma TransposeNotesEmpty(s: int)
    ensures TransposeNotes([], s) == Ok([])
  {
  }

  /** Composition lifted to lists: once the first step succeeds, the second
      succeeds exactly when the combined one does, with the same notes. */
  lemma TransposeNotesCompose(ns: seq<int>, a: int, b: int)
    requires TransposeNotes(ns, a).Ok?
    ensures TransposeNotes(TransposeNotes(ns, a).value, b).Ok? <==> TransposeNotes(ns, a + b).Ok?
    ensures TransposeNotes(ns, a + b).Ok? ==>
              TransposeNotes(ns, a + b) == TransposeNotes(TransposeNotes(ns, a).value, b)
  {
    var mid := TransposeNotes(ns, a).value;
    assert mid == Shift(ns, a);
    assert |mid| == |ns|;
    forall i | 0 <= i < |ns|
      ensures mid[i] + b == ns[i] + (a + b) && Shift(mid, b)[i] == Shift(ns, a + b)[i]
    {
    }
    assert Shift(mid, b) == Shift(ns, a + b);
  }

  /** What an event sounds, shifted by `s` without a range check. */
  function ShiftSounding(x: Sounding, s: int): Sounding
  {
    match x
    case Single(n) => Single(n + s)
    case Chord(ns) => Chord(Shift(ns, s))
  }

  /** Every note an event sounds is in range after shifting by `s`. */
  predicate SoundingFits(x: Sounding, s: int)
  {
    match x
    case Single(n) => InRange(n + s)
    case Chord(ns) => forall i :: 0 <= i < |ns| ==> InRange(ns[i] + s)
  }

  /** The `notes` of one event, transposed with the overload its shape selects. */
  function TransposeSounding(x: Sounding, s: int): (r: Result<Sounding>)
    ensures r.Ok? <==> SoundingFits(x, s)
    ensures r.Ok? ==> r.value == ShiftSounding(x, s)
  {
    match x
    case Single(n) =>
      var m :- Transpose(n, s);
      Ok(Single(m))
    case Chord(ns) =>
      var ms :- TransposeNotes(ns, s);
      Ok(Chord(ms))
  }

  /** Transposes a list of note events: only `notes` changes, every other
      field is copied, and one out-of-range note fails the whole call. */
  function TransposeEvents(evs: seq<NoteEvent>, s: int): (r: Result<seq<NoteEvent>>)
    ensures r.Ok? <==> forall i :: 0 <= i < |evs| ==> SoundingFits(evs[i].notes, s)
    ensures r.Ok? ==> |r.value| == |evs|
    ensures r.Ok? ==> forall i :: 0 <= i < |evs| ==>
                        r.value[i].notes == ShiftSounding(evs[i].notes, s)
                        && r.value[i].duration == evs[i].duration
  {
    if evs == [] then Ok([])
    else
      var first :- TransposeSounding(evs[0].notes, s);
      var rest :- TransposeEvents(evs[1..], s);
      Ok([evs[0].(notes := first)] + rest)
  }
}
